=== FILE: README.md ===
# Publish/subscribe client registry — a Dafny model

This project models the client side of a topic-based publish/subscribe relay
built on SignalR. It covers the two client classes:

- `PublishSubscribeHubClient` has typed handlers. Each subscription records the
  runtime type to decode into.
- The `Wtwd.Core` `PublishSubscribeHubProxy` has untyped handlers.

Each client owns four pieces of state:

- a handler table from topic to handler;
- a one-shot cancellation flag;
- a connection reference;
- one fixed rule that sorts remote-call failures into swallowed and re-raised.

Every public operation is a pure transition on an immutable state record.
The transport is an environment. Its answer to each call comes in as an
`Outcome` (`Done` or `Fail(failure)`). Each operation returns a `Step`, which
holds:

- the new state;
- the call it issued, if any (start, dispose, or a hub invocation with the
  state of the cancellation token it passes);
- its `Completion`: `Ok`, `Swallowed(failure)` (caught and only logged) or
  `Raised(failure)` (re-thrown).

Inbound handling returns a `Delivery`. It holds the handler invocation it
performs (at most one) and how it ended.

Modules:

- `Failures` holds the failure taxonomy and the shared cancellation filter. A
  failure is swallowed if it is a cancellation, or if it is an aggregate whose
  direct inner failures are all cancellations. An empty aggregate passes
  vacuously. A nested aggregate does not count. The filter is also written as
  the one-pass loop LINQ `All` performs.
- `Envelope` holds the `{Topic, Content}` message and the payload values with
  their type tags. It also holds an abstract JSON codec: a record of
  `serialize`, a typed `decode` and an untyped `decode`. The round trip of one
  value is the predicate `RoundTripsAt` (typed) or `UntypedRoundTripsAt`
  (untyped). They are hypotheses of the round-trip lemmas about that value,
  not axioms.
- `Transport` holds the connection bookkeeping: whether a start completed, how
  many inbound receivers were registered, how many times `DisposeAsync` was
  called (the typed client only records a call whose dispose failed, since a
  completed one clears its reference). It also holds the calls a client issues.
- `Registry` models `AddOrUpdate` and `TryRemove` on the handler table. It
  defines an independent reading of a sequence of table edits: a topic holds
  whatever the last edit naming it left. It proves that replaying the edits
  agrees with that reading.
- `HubClient` and `HubProxy` model the two classes. Each has a trace semantics
  (`Run` over a sequence of requests paired with the transport's answers). Each
  proves that the handler table after any trace is what the last normally
  completed subscribe or unsubscribe of each topic left.

Behaviour of the code worth knowing:

- After `DisconnectAsync` has cleared the typed client's reference, later
  connect, send, subscribe and unsubscribe calls raise a null reference. The
  catch chain re-raises it, because it is not a cancellation; these calls do
  not complete as cancelled. The proxy keeps its reference, so it still
  issues the invocation, with a cancelled token.
- Disposing is not wrapped in a catch. A failing dispose escapes from
  disconnect. In the typed client it also leaves the reference in place.
- The inbound receiver of both classes takes a whole `Message` and looks its
  topic up.
- The Core proxy contains neither decode failures nor handler failures on the
  inbound path. Only the typed client contains them.
- There are no explicit connecting or disconnecting states. A second connect
  fails because the transport rejects the start with an invalid operation
  (`Transport.RejectsRestart`). The client only re-raises it.

## Model

| member | source | states |
|---|---|---|
| Failures.Guard | src/Wtwd.PublishSubscribe.Client/PublishSubscribeHubClient.cs:150-164 | a remote failure returns normally exactly when it is a cancellation or an aggregate of only cancellations; every other failure is re-raised as itself; a normal completion stays normal |
| Failures.AllInnerCancelled | src/Wtwd.PublishSubscribe.Client/PublishSubscribeHubClient.cs:89 | the one-pass `All` over the direct inner failures is true exactly when every one of them is a cancellation, vacuously for none |
| Failures.Filter | src/Wtwd.Core.PublishSubscribe.Proxy/PublishSubscribeHubProxy.cs:101-113 | the catch chain evaluated with the loop agrees with the filter rule for every outcome |
| Failures.EmptyAggregateIsCancellation | src/Wtwd.PublishSubscribe.Client/PublishSubscribeHubClient.cs:187 | an aggregate with no inner failures is swallowed |
| Failures.NestedAggregateIsRaised | src/Wtwd.PublishSubscribe.Client/PublishSubscribeHubClient.cs:218 | an aggregate wrapping another aggregate is re-raised, since only direct inner failures are looked at |
| Failures.MixedAggregateIsRaised | src/Wtwd.PublishSubscribe.Client/PublishSubscribeHubClient.cs:150 | one non-cancellation among the inner failures makes the aggregate re-raised |
| Failures.InvalidOperationIsRaised | src/Wtwd.PublishSubscribe.Client/PublishSubscribeHubClient.cs:97-103 | connect's invalid-operation catch re-throws |
| Envelope.Wrap | src/Wtwd.PublishSubscribe.Client/PublishSubscribeHubClient.cs:142-146 | the envelope carries the topic as given and the serialized value as content, so content the codec round-trips decodes back to the sent value |
| Transport.Started | src/Wtwd.PublishSubscribe.Client/PublishSubscribeHubClient.cs:76-87 | a completed start marks the connection started and registers exactly one more inbound receiver |
| Registry.Lookup | src/Wtwd.PublishSubscribe.Client/PublishSubscribeHubClient.cs:246 | the lookup finds an entry exactly when the topic is in the table, and then it is the stored one |
| Registry.AddOrUpdate | src/Wtwd.PublishSubscribe.Client/PublishSubscribeHubClient.cs:185 | the topic maps to the new entry, replacing any earlier one; every other topic keeps its entry |
| Registry.TryRemove | src/Wtwd.PublishSubscribe.Client/PublishSubscribeHubClient.cs:216 | the topic has no entry afterwards, every other topic keeps its entry, and an absent topic leaves the table unchanged |
| Registry.ReplayFollowsLastWord | src/Wtwd.Core.PublishSubscribe.Proxy/PublishSubscribeHubProxy.cs:123-148 | after any sequence of insert-or-replace and remove steps, a topic holds what the last step naming it left, or its original entry |
| Registry.LastWordIsLast | src/Wtwd.Core.PublishSubscribe.Proxy/PublishSubscribeHubProxy.cs:123 | the last-word reading is the word of the edit at the last position naming the topic |
| Registry.LastWordSilent | src/Wtwd.Core.PublishSubscribe.Proxy/PublishSubscribeHubProxy.cs:148 | a topic no edit names keeps no last word, so its original entry stands |
| HubClient.Init | src/Wtwd.PublishSubscribe.Client/PublishSubscribeHubClient.cs:42-52 | a new client has an empty table, an uncancelled token and a fresh connection |
| HubClient.Connect | src/Wtwd.PublishSubscribe.Client/PublishSubscribeHubClient.cs:69-111 | the start is issued when a connection is present; only a completed start registers the receiver; cancellation is swallowed, invalid operation and others re-raised with the state unchanged; without a connection a null reference is raised |
| HubClient.Disconnect | src/Wtwd.PublishSubscribe.Client/PublishSubscribeHubClient.cs:117-129 | the flag is set; dispose is issued and the reference cleared only when one is present; only a failing dispose escapes, and then the reference stays with one more dispose call recorded |
| HubClient.Send | src/Wtwd.PublishSubscribe.Client/PublishSubscribeHubClient.cs:138-165 | while the connection reference is present, exactly one envelope with the given topic and the serialized value is invoked, with the current token, and the failure rule decides the completion; without it no call is issued and a null reference is raised; the state never changes |
| HubClient.Subscribe | src/Wtwd.PublishSubscribe.Client/PublishSubscribeHubClient.cs:174-202 | while the connection reference is present the remote call is issued first; only on normal completion the topic maps to (type, handler), replacing any earlier entry; other topics are untouched; on any failure, a null reference included, the table is untouched |
| HubClient.Unsubscribe | src/Wtwd.PublishSubscribe.Client/PublishSubscribeHubClient.cs:209-233 | while the connection reference is present the remote call is always issued; on normal completion the topic's entry is gone and an absent topic is no error; other topics are untouched; without a reference no call is issued and a null reference is raised |
| HubClient.HandleReceived | src/Wtwd.PublishSubscribe.Client/PublishSubscribeHubClient.cs:240-268 | nothing is invoked without an entry; with one, the handler is invoked at most once, exactly when the content decodes under the recorded type, with the decoded value; no failure escapes |
| HubClient.RunReplaysEdits | src/Wtwd.PublishSubscribe.Client/PublishSubscribeHubClient.cs:179-216 | over any trace, the table is the original with the normally completed subscribes and unsubscribes before the connection was cleared replayed onto it |
| HubClient.RunWithoutConnection | src/Wtwd.PublishSubscribe.Client/PublishSubscribeHubClient.cs:123-128 | once the reference is cleared no trace changes the table or brings a connection back |
| HubClient.RunFollowsLastWord | src/Wtwd.PublishSubscribe.Client/PublishSubscribeHubClient.cs:185-216 | over any trace, a topic's entry is what its last effective subscribe or unsubscribe left |
| HubClient.CancelledIffDisconnected | src/Wtwd.PublishSubscribe.Client/PublishSubscribeHubClient.cs:117-121 | after any sequence of operations the token is cancelled exactly when it was before or some disconnect was among them |
| HubClient.ReceiversCountStarts | src/Wtwd.PublishSubscribe.Client/PublishSubscribeHubClient.cs:76-87 | until the disconnect that clears it the connection stays present and gains exactly one inbound receiver per completed start |
| HubClient.ConnectTwiceRaisesInvalidOperation | tests/Wtwd.PublishSubscribe.IntegrationTests/PublishSubscribeHubTests.cs:37-50 | a second connect on a started connection re-raises the invalid operation and leaves the first connection and its receiver as they were |
| HubClient.DisconnectIsIdempotent | tests/Wtwd.PublishSubscribe.IntegrationTests/PublishSubscribeHubTests.cs:68-82 | a second disconnect issues no call, completes normally and changes nothing |
| HubClient.DisconnectWithoutConnect | tests/Wtwd.PublishSubscribe.IntegrationTests/PublishSubscribeHubTests.cs:53-65 | a never-connected client still disposes the connection its constructor made; it completes normally exactly when that dispose does, and then is cancelled with no connection; a failing dispose is re-raised |
| HubClient.OperationsAfterDisconnectRaise | src/Wtwd.PublishSubscribe.Client/PublishSubscribeHubClient.cs:123-128 | after the reference is cleared, every remote operation re-raises a null reference, which is not a cancellation, and issues no call |
| HubClient.CancellationKeepsTable | src/Wtwd.PublishSubscribe.Client/PublishSubscribeHubClient.cs:187-194 | a cancellation in send, subscribe or unsubscribe returns normally and keeps the state |
| HubClient.OtherFailureIsRaised | src/Wtwd.PublishSubscribe.Client/PublishSubscribeHubClient.cs:195-201 | any other failure in send, subscribe or unsubscribe is re-raised and keeps the state |
| HubClient.SubscribeReplaces | src/Wtwd.PublishSubscribe.Client/PublishSubscribeHubClient.cs:185 | after subscribing h1 then h2 to a topic, a message on it can reach only h2 |
| HubClient.UnsubscribeThenDeliver | tests/Wtwd.PublishSubscribe.IntegrationTests/PublishSubscribeHubTests.cs:151-181 | after unsubscribing, a message on the topic invokes nothing and raises nothing |
| HubClient.SendThenReceive | tests/Wtwd.PublishSubscribe.IntegrationTests/PublishSubscribeHubTests.cs:85-148 | the sent envelope, handed to a client subscribed with the value's type, makes its handler receive exactly the sent value, for a value the codec round-trips |
| HubProxy.Init | src/Wtwd.Core.PublishSubscribe.Proxy/PublishSubscribeHubProxy.cs:31-40 | a new proxy has an empty table, an uncancelled token and a fresh connection |
| HubProxy.Connect | src/Wtwd.Core.PublishSubscribe.Proxy/PublishSubscribeHubProxy.cs:47-75 | the start is always issued; only a completed start registers the receiver; cancellation is swallowed and every other failure re-raised with the state unchanged |
| HubProxy.Disconnect | src/Wtwd.Core.PublishSubscribe.Proxy/PublishSubscribeHubProxy.cs:77-87 | every call sets the flag and disposes once more; the connection is never cleared; a failing dispose escapes |
| HubProxy.Send | src/Wtwd.Core.PublishSubscribe.Proxy/PublishSubscribeHubProxy.cs:89-114 | exactly one envelope with the topic and the serialized value is invoked; the state never changes |
| HubProxy.Subscribe | src/Wtwd.Core.PublishSubscribe.Proxy/PublishSubscribeHubProxy.cs:116-138 | the remote call is issued; on normal completion the topic maps to the handler, replacing any earlier one; other topics untouched; otherwise the state is unchanged |
| HubProxy.Unsubscribe | src/Wtwd.Core.PublishSubscribe.Proxy/PublishSubscribeHubProxy.cs:140-163 | the remote call is always issued; on normal completion the entry is gone, absence being no error; otherwise the state is unchanged |
| HubProxy.HandleReceived | src/Wtwd.Core.PublishSubscribe.Proxy/PublishSubscribeHubProxy.cs:170-178 | nothing happens without an entry; with one the handler is invoked once with the untyped decode; a decode failure or handler failure escapes and nothing is swallowed |
| HubProxy.RunReplaysEdits | src/Wtwd.Core.PublishSubscribe.Proxy/PublishSubscribeHubProxy.cs:116-148 | over any trace, disconnects included, the table is the normally completed subscribes and unsubscribes replayed onto the original |
| HubProxy.RunFollowsLastWord | src/Wtwd.Core.PublishSubscribe.Proxy/PublishSubscribeHubProxy.cs:121-148 | over any trace, a topic's handler is what its last normally completed subscribe or unsubscribe left |
| HubProxy.CancelledIffDisconnected | src/Wtwd.Core.PublishSubscribe.Proxy/PublishSubscribeHubProxy.cs:77-81 | after any sequence of operations the token is cancelled exactly when it was before or some disconnect was among them, and the next hub invocation passes a cancelled token exactly then |
| HubProxy.ReceiversCountStarts | src/Wtwd.Core.PublishSubscribe.Proxy/PublishSubscribeHubProxy.cs:52-60 | the connection gains exactly one inbound receiver per completed start and counts as started once any start completed |
| HubProxy.DisposalsCountDisconnects | src/Wtwd.Core.PublishSubscribe.Proxy/PublishSubscribeHubProxy.cs:83-86 | the connection is disposed once per disconnect in any trace |
| HubProxy.AfterDisconnectTokenIsCancelled | src/Wtwd.Core.PublishSubscribe.Proxy/PublishSubscribeHubProxy.cs:145 | after a disconnect, subscribe and unsubscribe still invoke the hub, passing a cancelled token |
| HubProxy.CancellationKeepsState | src/Wtwd.Core.PublishSubscribe.Proxy/PublishSubscribeHubProxy.cs:125-130 | a cancellation in connect, send, subscribe or unsubscribe returns normally and keeps the state |
| HubProxy.OtherFailureIsRaised | src/Wtwd.Core.PublishSubscribe.Proxy/PublishSubscribeHubProxy.cs:131-137 | any other failure in connect, send, subscribe or unsubscribe is re-raised and keeps the state |
| HubProxy.SendStringThenReceive | tests/Wtwd.Core.PublishSubscribe.IntegrationTests/PublishSubscribeHubTests.cs:61-85 | a string sent on a topic reaches a subscribed handler as exactly that string, for a string the untyped decode gives back |
| HubProxy.SubscribeReplaces | src/Wtwd.Core.PublishSubscribe.Proxy/PublishSubscribeHubProxy.cs:123 | after subscribing h1 then h2 to a topic, a message on it can reach only h2 |
| HubProxy.UnsubscribeThenDeliver | src/Wtwd.Core.PublishSubscribe.Proxy/PublishSubscribeHubProxy.cs:145-178 | after unsubscribing, a message on the topic invokes nothing and raises nothing |

## Left out

- Transport and HTTP are not modelled: `HubConnection` start, invoke and dispose, `TransportType.LongPolling`, `BuildHttpClient`, the `/PublishSubscribe` hub path and URL composition. Their results enter only as `Outcome` parameters.
- The parameterless `ConnectAsync()` overload and the `httpClient ?? BuildHttpClient()` fallback are left out. They only choose the HTTP client.
- JSON internals are left out. The codec is abstract. Serialization is taken to be total, so a throwing `SerializeObject` is not modelled.
- Nothing is claimed about decoding content under a type it was not sent as. The two-clients test cannot support such a claim: its second handler sets the first handler's flag.
- Concurrency of `ConcurrentDictionary` and async suspension are left out. Operations are sequential, and `AddOrUpdate` and `TryRemove` are single atomic steps.
- Logging is left out.
- Both service hubs are not part of this model. This includes the broker-side group registry and the fan-out router. They only delegate to SignalR's `Groups` and `Clients`.
- The other two proxies (`Wtwd.PublishSubscribe.Proxy` and `ClientProxy`) are not part of this model. Neither has a handler table.
- Startup wiring and the interfaces are left out.
- Null arguments are not modelled. Strings are never null here, so the `ArgumentNullException` of a null topic is absent. So is a null decode result being cast to a value type inside the typed handler wrapper.
- `throw ex;` in the proxy resets the stack trace, where the client uses `throw;`. Both re-raise the same failure value here.
- Inbound delivery is modelled per call of the private receive method. Each registered receiver would call it once per pushed message, and that fan-out is not modelled.
- HubClient.ConnectTwiceRaisesInvalidOperation: relies on the transport rejecting a restart (`Transport.RejectsRestart`), because that rejection comes from the SignalR library, not from this code.
- HubClient.SendThenReceive: holds for a value the codec round-trips (`RoundTripsAt`), because the JSON library's round trip is not visible here. The lemma also assumes a hub that forwards the sent envelope whole to each subscriber. The hubs in the repository do not: the Service hub pushes only `messageWithTopic.Message` (src/Wtwd.PublishSubscribe.Service/Hubs/PublishSubscribeHub.cs:22) and the Core hub only `message.Content` (src/Wtwd.Core.PublishSubscribe.Service/Hubs/PublishSubscribeHub.cs:22), while both receivers bind a whole `Model.Message`. The typed client also invokes `SendMessageAsync`, which the Service hub does not define; it defines `SendMessage(MessageWithTopic)`.
- HubProxy.SendStringThenReceive: holds for a string the untyped decode gives back (`UntypedRoundTripsAt`). Date-like strings do not round-trip through the untyped decode: with its default date handling the JSON library turns them into dates. The lemma also assumes a hub that forwards the sent envelope whole to each subscriber. The hubs in the repository do not: the Service hub pushes only `messageWithTopic.Message` (src/Wtwd.PublishSubscribe.Service/Hubs/PublishSubscribeHub.cs:22) and the Core hub only `message.Content` (src/Wtwd.Core.PublishSubscribe.Service/Hubs/PublishSubscribeHub.cs:22), while both receivers bind a whole `Model.Message`.
- HubClient.DisconnectWithoutConnect: whether a never-connected client disconnects without failure depends on `DisposeAsync` of a never-started connection, which is library behaviour; the lemma states the result for either outcome.

=== FILE: envelope.dfy ===
/**
  The envelope that travels to the hub and back, and the JSON codec the
  clients use for its content. The codec is kept abstract: a record of total
  functions, with the round-trip laws the clients rely on stated as predicates
  rather than assumed.
 */
module Envelope {
  import opened Options

  /** `Model.Message`: a topic and the JSON text of the payload. */
  datatype Message = Message(topic: string, content: string)

  /** The payload shapes a subscriber may ask for: text, integers, instants, durations, records. */
  datatype Value =
    | Text(text: string)
    | Number(number: int)
    | Instant(ticks: int)
    | Span(ticks: int)
    | Record(name: string, fields: seq<Value>)

  /** The runtime type a typed subscriber asks the content to be decoded into. */
  datatype Tag = TextTag | NumberTag | InstantTag | SpanTag | RecordTag(name: string)

  /** The runtime type of a value, `typeof(T)` for the `T` it was sent as. */
  function TagOf(v: Value): Tag {
    match v
    case Text(_) => TextTag
    case Number(_) => NumberTag
    case Instant(_) => InstantTag
    case Span(_) => SpanTag
    case Record(name, _) => RecordTag(name)
  }

  /**
    `JsonConvert.SerializeObject`, `JsonConvert.DeserializeObject(text, type)`
    (None when it throws) and the untyped `JsonConvert.DeserializeObject(text)`.
   */
  datatype Codec = Codec(
    serialize: Value -> string,
    decode: (string, Tag) -> Option<Value>,
    decodeUntyped: string -> Option<Value>)

  /** Decoding the serialized `v` with `v`'s own type gives `v` back. */
  predicate RoundTripsAt(c: Codec, v: Value) {
    c.decode(c.serialize(v), TagOf(v)) == Some(v)
  }

  /**
    Decoding the serialized `v` without a type gives `v` back. The JSON
    library's untyped decode does not do this for every value: a string that
    looks like a date comes back as a date.
   */
  predicate UntypedRoundTripsAt(c: Codec, v: Value) {
    c.decodeUntyped(c.serialize(v)) == Some(v)
  }

  /**
    The envelope `SendAsync` builds: the topic as given and the serialized value
    as content, nothing else.
   */
  function Wrap(c: Codec, topic: string, v: Value): (m: Message)
    ensures m.topic == topic
    ensures m.content == c.serialize(v)
    ensures RoundTripsAt(c, v) ==> c.decode(m.content, TagOf(v)) == Some(v)
    ensures UntypedRoundTripsAt(c, v) ==> c.decodeUntyped(m.content) == Some(v)
  {
    Message(topic, c.serialize(v))
  }
}

=== FILE: failures.dfy ===
/**
  Failures of remote calls and the one rule both client classes use to decide
  whether a failure is swallowed (it stands for a cancellation) or re-raised.
 */
module Failures {

  /** The exceptions a remote call, a decode or a handler can end with. */
  datatype Failure =
    | Cancelled                       // OperationCanceledException (and its subclasses)
    | Aggregate(inner: seq<Failure>)  // AggregateException with its direct inner exceptions
    | InvalidOperation                // InvalidOperationException, e.g. starting a started connection
    | NullReference                   // a call through a connection reference that was cleared
    | Malformed                       // the JSON reader could not decode the content
    | Other                           // any other exception

  /** What the transport (or a handler) answers to one call. */
  datatype Outcome = Done | Fail(failure: Failure)

  /** How an operation of the client ends, as its caller sees it. */
  datatype Completion =
    | Ok                          // the remote call completed normally
    | Swallowed(cause: Failure)   // a failure was caught and only logged
    | Raised(cause: Failure)      // a failure was caught, logged and re-thrown
  {
    /** The caller's await returns without an exception. */
    predicate ReturnsNormally() {
      !Raised?
    }
  }

  /** Every direct inner failure is a plain cancellation (LINQ `All`, so true of none). */
  predicate AllCancelled(inner: seq<Failure>) {
    forall i :: 0 <= i < |inner| ==> inner[i].Cancelled?
  }

  /**
    The shared filter of every catch chain: a cancellation, or an aggregate whose
    direct inner failures are all cancellations.
   */
  predicate IsCancellation(f: Failure) {
    f.Cancelled? || (f.Aggregate? && AllCancelled(f.inner))
  }

  /**
    The catch chain around one remote call: a cancellation is swallowed, every
    other failure is re-raised, a normal completion stays normal.
   */
  function Guard(o: Outcome): (c: Completion)
    ensures c.Ok? <==> o.Done?
    ensures c.ReturnsNormally() <==> o.Done? || IsCancellation(o.failure)
    ensures c.Swallowed? ==> o == Fail(c.cause) && IsCancellation(c.cause)
    ensures c.Raised? ==> o == Fail(c.cause) && !IsCancellation(c.cause)
  {
    match o
    case Done => Ok
    case Fail(f) => if IsCancellation(f) then Swallowed(f) else Raised(f)
  }

  /**
    The `when` filter `aex.InnerExceptions.All(e => e is OperationCanceledException)`
    evaluated the way LINQ does: one pass that stops at the first non-cancellation.
   */
  method AllInnerCancelled(inner: seq<Failure>) returns (all: bool)
    ensures all == AllCancelled(inner)
  {
    var k := 0;
    while k < |inner|
      invariant 0 <= k <= |inner|
      invariant forall i :: 0 <= i < k ==> inner[i].Cancelled?
    {
      if !inner[k].Cancelled? {
        return false;
      }
      k := k + 1;
    }
    return true;
  }

  /** The catch chain decided with the loop above instead of the quantifier. */
  method Filter(o: Outcome) returns (c: Completion)
    ensures c == Guard(o)
  {
    match o
    case Done =>
      c := Ok;
    case Fail(f) =>
      var swallow := f.Cancelled?;
      if f.Aggregate? {
        swallow := AllInnerCancelled(f.inner);
      }
      c := if swallow then Swallowed(f) else Raised(f);
  }

  /** An aggregate without inner failures passes the filter vacuously. */
  lemma EmptyAggregateIsCancellation()
    ensures Guard(Fail(Aggregate([]))) == Swallowed(Aggregate([]))
  {
  }

  /** Only direct inner failures are looked at: an aggregate of aggregates is re-raised. */
  lemma NestedAggregateIsRaised(inner: seq<Failure>)
    ensures Guard(Fail(Aggregate([Aggregate(inner)]))).Raised?
  {
    var inners := [Aggregate(inner)];
    assert !inners[0].Cancelled?;
  }

  /** One non-cancellation among the inner failures makes the whole aggregate re-raised. */
  lemma MixedAggregateIsRaised(inner: seq<Failure>, i: nat)
    requires i < |inner| && !inner[i].Cancelled?
    ensures Guard(Fail(Aggregate(inner))) == Raised(Aggregate(inner))
  {
  }

  /** The invalid-operation catch of ConnectAsync re-throws, like the general catch. */
  lemma InvalidOperationIsRaised()
    ensures Guard(Fail(InvalidOperation)) == Raised(InvalidOperation)
  {
  }
}

=== FILE: hub_client.dfy ===
/**
  `PublishSubscribeHubClient`: the typed client. Its handler table maps a topic
  to the runtime type the subscriber asked for and the handler; disconnecting
  cancels the token, disposes the connection and clears the reference, after
  which every operation that goes through the connection fails.
 */
module HubClient {
  import opened Options
  import opened Failures
  import opened Envelope
  import opened Transport
  import opened Registry

  const SendMethod := "SendMessageAsync"
  const SubscribeMethod := "SubscribeAsync"
  const UnsubscribeMethod := "UnsubscribeAsync"

  /** A subscription: the type to decode content into and the handler to call. */
  datatype Entry = Entry(tag: Tag, handler: HandlerId)

  /** The client's state: handler table, cancellation flag, connection reference. */
  datatype Client = Client(
    handlers: map<string, Entry>,
    cancelled: bool,
    connection: Option<Connection>)

  /** The constructor: empty table, token not cancelled, a new connection. */
  function Init(): (s: Client)
    ensures s.handlers == map[] && !s.cancelled && s.connection == Some(Fresh)
  {
    Client(map[], false, Some(Fresh))
  }

  /**
    `ConnectAsync`: start the connection, and only once the start completed
    register the inbound receiver. A cancellation is swallowed; an invalid
    operation and every other failure is re-raised. Without a connection the
    start itself throws a null reference.
   */
  function Connect(s: Client, start: Outcome): (r: Step<Client>)
    ensures r.state.handlers == s.handlers && r.state.cancelled == s.cancelled
    ensures r.state.connection.Some? <==> s.connection.Some?
    ensures s.connection.None? ==> r.issued.None? && r.completion == Raised(NullReference)
    ensures s.connection.Some? ==> r.issued == Some(Start) && r.completion == Guard(start)
    ensures r.completion.Ok? ==> r.state.connection == Some(Started(s.connection.value))
    ensures !r.completion.Ok? ==> r.state == s
  {
    match s.connection
    case None => Step(s, None, Raised(NullReference))
    case Some(c) =>
      if start.Done? then Step(s.(connection := Some(Started(c))), Some(Start), Ok)
      else Step(s, Some(Start), Guard(start))
  }

  /**
    `DisconnectAsync`: cancel the token, then, only if a connection is present,
    dispose it and clear the reference. A failing dispose is not caught and
    leaves the reference in place, with one more dispose call recorded.
   */
  function Disconnect(s: Client, dispose: Outcome): (r: Step<Client>)
    ensures r.state.cancelled
    ensures r.state.handlers == s.handlers
    ensures r.issued == (if s.connection.Some? then Some(Dispose) else None)
    ensures r.completion.Raised? <==> s.connection.Some? && dispose.Fail?
    ensures r.completion.Raised? ==>
      && r.completion.cause == dispose.failure
      && r.state.connection == Some(s.connection.value.(disposals := s.connection.value.disposals + 1))
    ensures !r.completion.Raised? ==> r.completion.Ok? && r.state.connection.None?
  {
    var cancelled := s.(cancelled := true);
    match s.connection
    case None => Step(cancelled, None, Ok)
    case Some(c) =>
      match dispose
      case Done => Step(cancelled.(connection := None), Some(Dispose), Ok)
      case Fail(f) =>
        Step(cancelled.(connection := Some(c.(disposals := c.disposals + 1))), Some(Dispose), Raised(f))
  }

  /**
    `SendAsync`: build one envelope with the topic and the serialized value and
    invoke the hub with it. The table, flag and connection are never changed.
   */
  function Send(s: Client, codec: Codec, topic: string, v: Value, outcome: Outcome): (r: Step<Client>)
    ensures r.state == s
    ensures s.connection.None? ==> r.issued.None? && r.completion == Raised(NullReference)
    ensures s.connection.Some? ==> r.completion == Guard(outcome)
    ensures s.connection.Some? ==>
      && r.issued.Some? && r.issued.value.Invoke?
      && r.issued.value.target == SendMethod
      && r.issued.value.tokenCancelled == s.cancelled
      && r.issued.value.arg == MessageArg(Message(topic, codec.serialize(v)))
  {
    match s.connection
    case None => Step(s, None, Raised(NullReference))
    case Some(_) =>
      Step(s, Some(Invoke(SendMethod, s.cancelled, MessageArg(Wrap(codec, topic, v)))), Guard(outcome))
  }

  /**
    `SubscribeAsync<T>`: invoke the hub first, and only if that completes
    normally map the topic to (T, handler), replacing an earlier entry. Every
    other topic keeps its entry; on any failure the table is untouched.
   */
  function Subscribe(s: Client, topic: string, tag: Tag, handler: HandlerId, outcome: Outcome): (r: Step<Client>)
    ensures r.state.cancelled == s.cancelled && r.state.connection == s.connection
    ensures s.connection.None? ==> r.issued.None? && r.completion == Raised(NullReference)
    ensures s.connection.Some? ==>
      r.issued == Some(Invoke(SubscribeMethod, s.cancelled, TopicArg(topic))) && r.completion == Guard(outcome)
    ensures r.completion.Ok? ==> Lookup(r.state.handlers, topic) == Some(Entry(tag, handler))
    ensures forall u :: u != topic ==> Lookup(r.state.handlers, u) == Lookup(s.handlers, u)
    ensures !r.completion.Ok? ==> r.state.handlers == s.handlers
  {
    match s.connection
    case None => Step(s, None, Raised(NullReference))
    case Some(_) =>
      var call := Some(Invoke(SubscribeMethod, s.cancelled, TopicArg(topic)));
      if outcome.Done? then Step(s.(handlers := AddOrUpdate(s.handlers, topic, Entry(tag, handler))), call, Ok)
      else Step(s, call, Guard(outcome))
  }

  /**
    `UnSubscribeAsync`: invoke the hub first, whether or not the topic has an
    entry, and on normal completion remove the entry if there is one.
   */
  function Unsubscribe(s: Client, topic: string, outcome: Outcome): (r: Step<Client>)
    ensures r.state.cancelled == s.cancelled && r.state.connection == s.connection
    ensures s.connection.None? ==> r.issued.None? && r.completion == Raised(NullReference)
    ensures s.connection.Some? ==>
      r.issued == Some(Invoke(UnsubscribeMethod, s.cancelled, TopicArg(topic))) && r.completion == Guard(outcome)
    ensures r.completion.Ok? ==> Lookup(r.state.handlers, topic) == None
    ensures forall u :: u != topic ==> Lookup(r.state.handlers, u) == Lookup(s.handlers, u)
    ensures !r.completion.Ok? ==> r.state.handlers == s.handlers
  {
    match s.connection
    case None => Step(s, None, Raised(NullReference))
    case Some(_) =>
      var call := Some(Invoke(UnsubscribeMethod, s.cancelled, TopicArg(topic)));
      if outcome.Done? then Step(s.(handlers := TryRemove(s.handlers, topic)), call, Ok)
      else Step(s, call, Guard(outcome))
  }

  /**
    `HandleReceivedMessage`: look the topic up, decode the content into the
    recorded type and call the handler once. A decode failure or a failing
    handler is caught and logged; nothing escapes to the transport.
   */
  function HandleReceived(s: Client, codec: Codec, m: Message, handlerOutcome: Outcome): (d: Delivery)
    ensures d.completion.ReturnsNormally()
    ensures m.topic !in s.handlers ==> d == Delivery(None, Ok)
    ensures d.invoked.Some? <==>
      m.topic in s.handlers && codec.decode(m.content, s.handlers[m.topic].tag).Some?
    ensures d.invoked.Some? ==>
      && d.invoked.value.handler == s.handlers[m.topic].handler
      && codec.decode(m.content, s.handlers[m.topic].tag) == Some(d.invoked.value.argument)
    ensures d.completion.Ok? <==> m.topic !in s.handlers || (d.invoked.Some? && handlerOutcome.Done?)
  {
    match Lookup(s.handlers, m.topic)
    case None => Delivery(None, Ok)
    case Some(entry) =>
      match codec.decode(m.content, entry.tag)
      case None => Delivery(None, Swallowed(Malformed))
      case Some(v) =>
        var call := Some(Invocation(entry.handler, v));
        match handlerOutcome
        case Done => Delivery(call, Ok)
        case Fail(f) => Delivery(call, Swallowed(f))
  }

  // ---------------------------------------------------------------------------
  // Sequences of operations

  /** A call of a public operation together with the environment's answer to it. */
  datatype Request =
    | ConnectReq(start: Outcome)
    | DisconnectReq(dispose: Outcome)
    | SendReq(topic: string, value: Value, outcome: Outcome)
    | SubscribeReq(topic: string, tag: Tag, handler: HandlerId, outcome: Outcome)
    | UnsubscribeReq(topic: string, outcome: Outcome)

  function Apply(s: Client, codec: Codec, q: Request): Step<Client> {
    match q
    case ConnectReq(start) => Connect(s, start)
    case DisconnectReq(dispose) => Disconnect(s, dispose)
    case SendReq(topic, v, outcome) => Send(s, codec, topic, v, outcome)
    case SubscribeReq(topic, tag, h, outcome) => Subscribe(s, topic, tag, h, outcome)
    case UnsubscribeReq(topic, outcome) => Unsubscribe(s, topic, outcome)
  }

  /** The state after the requests, issued one after another. */
  function Run(s: Client, codec: Codec, qs: seq<Request>): Client
    decreases |qs|
  {
    if |qs| == 0 then s else Run(Apply(s, codec, qs[0]).state, codec, qs[1..])
  }

  /** The requests before the first disconnect that cleared the connection. */
  function Effective(qs: seq<Request>): (e: seq<Request>)
    ensures |e| <= |qs| && e == qs[..|e|]
    ensures forall i :: 0 <= i < |e| ==> e[i] != DisconnectReq(Done)
    ensures |e| < |qs| ==> qs[|e|] == DisconnectReq(Done)
    decreases |qs|
  {
    if |qs| == 0 || qs[0] == DisconnectReq(Done) then []
    else [qs[0]] + Effective(qs[1..])
  }

  /** The table edit a request makes when the remote call completes normally. */
  function EditOf(q: Request): seq<Edit<Entry>> {
    match q
    case SubscribeReq(topic, tag, h, Done) => [Put(topic, Entry(tag, h))]
    case UnsubscribeReq(topic, Done) => [Remove(topic)]
    case _ => []
  }

  function Edits(qs: seq<Request>): seq<Edit<Entry>>
    decreases |qs|
  {
    if |qs| == 0 then [] else EditOf(qs[0]) + Edits(qs[1..])
  }

  /** With the reference cleared, every request keeps the table and leaves no connection. */
  lemma {:induction false} RunWithoutConnection(s: Client, codec: Codec, qs: seq<Request>)
    requires s.connection.None?
    ensures Run(s, codec, qs).handlers == s.handlers
    ensures Run(s, codec, qs).connection.None?
    decreases |qs|
  {
    if |qs| > 0 {
      RunWithoutConnection(Apply(s, codec, qs[0]).state, codec, qs[1..]);
    }
  }

  /** One request that does not clear the connection changes the table by its own edit. */
  lemma ApplyEdits(s: Client, codec: Codec, q: Request)
    requires s.connection.Some? && q != DisconnectReq(Done)
    ensures Apply(s, codec, q).state.handlers == Replay(s.handlers, EditOf(q))
    ensures Apply(s, codec, q).state.connection.Some?
  {
  }

  /**
    With a connection present, the table after any requests is the original
    table with the edits of the requests that completed normally before the
    connection was cleared replayed onto it.
   */
  lemma {:induction false} RunReplaysEdits(s: Client, codec: Codec, qs: seq<Request>)
    requires s.connection.Some?
    ensures Run(s, codec, qs).handlers == Replay(s.handlers, Edits(Effective(qs)))
    decreases |qs|
  {
    if |qs| > 0 {
      var next := Apply(s, codec, qs[0]).state;
      if qs[0] == DisconnectReq(Done) {
        RunWithoutConnection(next, codec, qs[1..]);
      } else {
        ApplyEdits(s, codec, qs[0]);
        RunReplaysEdits(next, codec, qs[1..]);
        var rest := Effective(qs[1..]);
        assert Effective(qs) == [qs[0]] + rest;
        assert Edits([qs[0]] + rest) == EditOf(qs[0]) + Edits(rest) by {
          assert ([qs[0]] + rest)[0] == qs[0];
          assert ([qs[0]] + rest)[1..] == rest;
        }
        ReplayAppend(s.handlers, EditOf(qs[0]), Edits(rest));
      }
    }
  }

  /**
    The entry of a topic after any requests is what the last normally completed
    subscribe or unsubscribe of that topic left, counting only requests made
    while the connection was present; with no such request it is the original.
   */
  lemma RunFollowsLastWord(s: Client, codec: Codec, qs: seq<Request>, t: string)
    ensures Lookup(Run(s, codec, qs).handlers, t) ==
      if s.connection.None? then Lookup(s.handlers, t)
      else LastWord(Edits(Effective(qs)), t).ValueOr(Lookup(s.handlers, t))
  {
    if s.connection.None? {
      RunWithoutConnection(s, codec, qs);
    } else {
      RunReplaysEdits(s, codec, qs);
      ReplayFollowsLastWord(s.handlers, Edits(Effective(qs)), t);
    }
  }

  /**
    The cancellation flag is set by a disconnect, with or without a connection
    and whatever the dispose does, and by nothing else; once set it stays set.
   */
  lemma {:induction false} CancelledIffDisconnected(s: Client, codec: Codec, qs: seq<Request>)
    ensures Run(s, codec, qs).cancelled <==>
      s.cancelled || exists i :: 0 <= i < |qs| && qs[i].DisconnectReq?
    decreases |qs|
  {
    if |qs| > 0 {
      var rest := qs[1..];
      CancelledIffDisconnected(Apply(s, codec, qs[0]).state, codec, rest);
      assert forall j :: 0 <= j < |rest| ==> rest[j] == qs[j + 1];
      if exists i :: 0 <= i < |qs| && qs[i].DisconnectReq? {
        var i :| 0 <= i < |qs| && qs[i].DisconnectReq?;
        if i > 0 {
          assert rest[i - 1].DisconnectReq?;
        }
      }
    }
  }

  /** How many connects in the requests saw their start complete. */
  function CountStarts(qs: seq<Request>): nat
    decreases |qs|
  {
    if |qs| == 0 then 0 else (if qs[0] == ConnectReq(Done) then 1 else 0) + CountStarts(qs[1..])
  }

  /**
    Up to the disconnect that clears it, the connection stays present, each
    completed start registers exactly one more inbound receiver and nothing
    else does.
   */
  lemma {:induction false} ReceiversCountStarts(s: Client, codec: Codec, qs: seq<Request>)
    requires s.connection.Some?
    ensures Run(s, codec, Effective(qs)).connection.Some?
    ensures Run(s, codec, Effective(qs)).connection.value.receivers ==
      s.connection.value.receivers + CountStarts(Effective(qs))
    decreases |qs|
  {
    if |qs| > 0 && qs[0] != DisconnectReq(Done) {
      var rest := Effective(qs[1..]);
      assert Effective(qs) == [qs[0]] + rest;
      assert ([qs[0]] + rest)[0] == qs[0];
      assert ([qs[0]] + rest)[1..] == rest;
      ReceiversCountStarts(Apply(s, codec, qs[0]).state, codec, qs[1..]);
    }
  }

  // ---------------------------------------------------------------------------
  // Scenarios of the integration tests and the lifecycle

  /**
    Connecting a started connection again: the transport rejects the start, the
    client re-raises the invalid operation and the first connection, with its
    receiver, is left as it was.
   */
  lemma ConnectTwiceRaisesInvalidOperation(s: Client, first: Outcome, second: Outcome)
    requires s.connection.Some? && first.Done?
    requires RejectsRestart(Connect(s, first).state.connection.value, second)
    ensures Connect(Connect(s, first).state, second).completion == Raised(InvalidOperation)
    ensures Connect(Connect(s, first).state, second).state == Connect(s, first).state
    ensures Connect(s, first).state.connection.value.receivers == s.connection.value.receivers + 1
  {
  }

  /**
    Disconnecting again after a disconnect that cleared the connection issues
    no call, completes normally and changes nothing, whatever the transport
    would have answered.
   */
  lemma DisconnectIsIdempotent(s: Client, first: Outcome, second: Outcome)
    requires Disconnect(s, first).completion.Ok?
    ensures Disconnect(Disconnect(s, first).state, second) == Step(Disconnect(s, first).state, None, Ok)
  {
  }

  /**
    Disconnecting a client that never connected still disposes the connection
    its constructor made; it completes normally exactly when that dispose does,
    and then leaves the client cancelled with no connection.
   */
  lemma DisconnectWithoutConnect(d: Outcome)
    ensures Disconnect(Init(), d).issued == Some(Dispose)
    ensures Disconnect(Init(), d).completion.Ok? <==> d.Done?
    ensures d.Done? ==> Disconnect(Init(), d).state == Client(map[], true, None)
    ensures d.Fail? ==> Disconnect(Init(), d).completion == Raised(d.failure)
  {
  }

  /**
    After a disconnect cleared the reference, connect, send, subscribe and
    unsubscribe all re-raise a null reference, which is not a cancellation,
    and issue no call.
   */
  lemma OperationsAfterDisconnectRaise(s: Client, codec: Codec, q: Request, d: Outcome)
    requires Disconnect(s, d).completion.Ok? && !q.DisconnectReq?
    ensures Apply(Disconnect(s, d).state, codec, q).completion == Raised(NullReference)
    ensures Apply(Disconnect(s, d).state, codec, q).issued.None?
    ensures !IsCancellation(NullReference)
  {
  }

  /** A cancelled or all-cancelled remote call returns normally and keeps the table. */
  lemma CancellationKeepsTable(s: Client, codec: Codec, q: Request, f: Failure)
    requires s.connection.Some? && IsCancellation(f)
    requires q.SendReq? || q.SubscribeReq? || q.UnsubscribeReq?
    requires q.outcome == Fail(f)
    ensures Apply(s, codec, q).completion == Swallowed(f)
    ensures Apply(s, codec, q).state == s
  {
  }

  /** Any other remote failure is re-raised and keeps the table. */
  lemma OtherFailureIsRaised(s: Client, codec: Codec, q: Request, f: Failure)
    requires s.connection.Some? && !IsCancellation(f)
    requires q.SendReq? || q.SubscribeReq? || q.UnsubscribeReq?
    requires q.outcome == Fail(f)
    ensures Apply(s, codec, q).completion == Raised(f)
    ensures Apply(s, codec, q).state == s
  {
  }

  /**
    Subscribing twice to a topic, first with h1 and then with h2: a later
    message on the topic reaches h2 only.
   */
  lemma SubscribeReplaces(s: Client, codec: Codec, t: string, tag1: Tag, h1: HandlerId,
                          tag2: Tag, h2: HandlerId, content: string, ho: Outcome)
    requires s.connection.Some?
    ensures var s1 := Subscribe(s, t, tag1, h1, Done).state;
            var s2 := Subscribe(s1, t, tag2, h2, Done).state;
            var d := HandleReceived(s2, codec, Message(t, content), ho);
            d.invoked.Some? ==> d.invoked.value.handler == h2
  {
  }

  /** After unsubscribing, a message on the topic invokes nothing and raises nothing. */
  lemma UnsubscribeThenDeliver(s: Client, codec: Codec, t: string, content: string, ho: Outcome)
    requires s.connection.Some?
    ensures HandleReceived(Unsubscribe(s, t, Done).state, codec, Message(t, content), ho) == Delivery(None, Ok)
  {
  }

  /**
    The round trip the integration tests intend: the envelope one client sends,
    handed to a client subscribed to that topic with the value's own type,
    makes its handler receive exactly the value that was sent.
   */
  lemma SendThenReceive(sender: Client, receiver: Client, codec: Codec, t: string, v: Value,
                        h: HandlerId, sent: Outcome, ho: Outcome)
    requires RoundTripsAt(codec, v)
    requires sender.connection.Some? && receiver.connection.Some?
    ensures var r := Subscribe(receiver, t, TagOf(v), h, Done).state;
            var call := Send(sender, codec, t, v, sent).issued.value;
            HandleReceived(r, codec, call.arg.message, ho).invoked == Some(Invocation(h, v))
  {
  }
}

=== FILE: hub_proxy.dfy ===
/**
  `Wtwd.Core` `PublishSubscribeHubProxy`: the untyped variant. Its handler
  table maps a topic straight to a handler that takes whatever the untyped
  decode produces. The connection reference is read-only: disconnecting
  cancels the token and disposes the connection on every call but never
  clears it, and inbound failures are not contained.
 */
module HubProxy {
  import opened Options
  import opened Failures
  import opened Envelope
  import opened Transport
  import opened Registry

  const SendMethod := "SendMessage"
  const SubscribeMethod := "SubscribeAsync"
  const UnsubscribeMethod := "UnsubscribeAsync"

  /** The proxy's state: handler table, cancellation flag, the (never cleared) connection. */
  datatype Proxy = Proxy(handlers: map<string, HandlerId>, cancelled: bool, connection: Connection)

  /** The constructor: empty table, token not cancelled, a new connection. */
  function Init(): (s: Proxy)
    ensures s.handlers == map[] && !s.cancelled && s.connection == Fresh
  {
    Proxy(map[], false, Fresh)
  }

  /**
    `ConnectAsync`: start the connection and then register the inbound
    receiver. A cancellation is swallowed; every other failure, an invalid
    operation included, is re-raised with the state unchanged.
   */
  function Connect(s: Proxy, start: Outcome): (r: Step<Proxy>)
    ensures r.issued == Some(Start) && r.completion == Guard(start)
    ensures r.state.handlers == s.handlers && r.state.cancelled == s.cancelled
    ensures r.completion.Ok? ==> r.state.connection == Started(s.connection)
    ensures !r.completion.Ok? ==> r.state == s
  {
    if start.Done? then Step(s.(connection := Started(s.connection)), Some(Start), Ok)
    else Step(s, Some(Start), Guard(start))
  }

  /**
    `DisconectAsync`: cancel the token and dispose the connection, on every
    call. The reference stays; a failing dispose is not caught.
   */
  function Disconnect(s: Proxy, dispose: Outcome): (r: Step<Proxy>)
    ensures r.state.cancelled
    ensures r.state.handlers == s.handlers
    ensures r.issued == Some(Dispose)
    ensures r.state.connection == s.connection.(disposals := s.connection.disposals + 1)
    ensures r.completion == (if dispose.Done? then Ok else Raised(dispose.failure))
  {
    var next := s.(cancelled := true, connection := s.connection.(disposals := s.connection.disposals + 1));
    match dispose
    case Done => Step(next, Some(Dispose), Ok)
    case Fail(f) => Step(next, Some(Dispose), Raised(f))
  }

  /**
    `SendAsync`: one envelope with the topic and the serialized value is
    handed to the hub; the proxy's state is never changed.
   */
  function Send(s: Proxy, codec: Codec, topic: string, v: Value, outcome: Outcome): (r: Step<Proxy>)
    ensures r.state == s
    ensures r.completion == Guard(outcome)
    ensures r.issued.Some? && r.issued.value.Invoke?
    ensures r.issued.value.target == SendMethod && r.issued.value.tokenCancelled == s.cancelled
    ensures r.issued.value.arg == MessageArg(Message(topic, codec.serialize(v)))
  {
    Step(s, Some(Invoke(SendMethod, s.cancelled, MessageArg(Wrap(codec, topic, v)))), Guard(outcome))
  }

  /**
    `SubscribeAsync`: invoke the hub, then on normal completion map the topic
    to the handler, replacing an earlier one; other topics keep their entries.
   */
  function Subscribe(s: Proxy, topic: string, handler: HandlerId, outcome: Outcome): (r: Step<Proxy>)
    ensures r.issued == Some(Invoke(SubscribeMethod, s.cancelled, TopicArg(topic)))
    ensures r.completion == Guard(outcome)
    ensures r.state.cancelled == s.cancelled && r.state.connection == s.connection
    ensures r.completion.Ok? ==> Lookup(r.state.handlers, topic) == Some(handler)
    ensures forall u :: u != topic ==> Lookup(r.state.handlers, u) == Lookup(s.handlers, u)
    ensures !r.completion.Ok? ==> r.state == s
  {
    var call := Some(Invoke(SubscribeMethod, s.cancelled, TopicArg(topic)));
    if outcome.Done? then Step(s.(handlers := AddOrUpdate(s.handlers, topic, handler)), call, Ok)
    else Step(s, call, Guard(outcome))
  }

  /**
    `UnSubscribeAsync`: invoke the hub whether or not the topic has an entry,
    then on normal completion remove the entry if present.
   */
  function Unsubscribe(s: Proxy, topic: string, outcome: Outcome): (r: Step<Proxy>)
    ensures r.issued == Some(Invoke(UnsubscribeMethod, s.cancelled, TopicArg(topic)))
    ensures r.completion == Guard(outcome)
    ensures r.state.cancelled == s.cancelled && r.state.connection == s.connection
    ensures r.completion.Ok? ==> Lookup(r.state.handlers, topic) == None
    ensures forall u :: u != topic ==> Lookup(r.state.handlers, u) == Lookup(s.handlers, u)
    ensures !r.completion.Ok? ==> r.state == s
  {
    var call := Some(Invoke(UnsubscribeMethod, s.cancelled, TopicArg(topic)));
    if outcome.Done? then Step(s.(handlers := TryRemove(s.handlers, topic)), call, Ok)
    else Step(s, call, Guard(outcome))
  }

  /**
    `HandleRecievedMessage`: look the topic up and call its handler once with
    the untyped decode of the content. Nothing is caught: a decode failure
    escapes before any call, and a handler's failure escapes as it is.
   */
  function HandleReceived(s: Proxy, codec: Codec, m: Message, handlerOutcome: Outcome): (d: Delivery)
    ensures m.topic !in s.handlers ==> d == Delivery(None, Ok)
    ensures d.invoked.Some? <==> m.topic in s.handlers && codec.decodeUntyped(m.content).Some?
    ensures d.invoked.Some? ==>
      && d.invoked.value.handler == s.handlers[m.topic]
      && codec.decodeUntyped(m.content) == Some(d.invoked.value.argument)
      && d.completion == (if handlerOutcome.Done? then Ok else Raised(handlerOutcome.failure))
    ensures m.topic in s.handlers && codec.decodeUntyped(m.content).None? ==> d.completion == Raised(Malformed)
    ensures !d.completion.Swallowed?
  {
    match Lookup(s.handlers, m.topic)
    case None => Delivery(None, Ok)
    case Some(h) =>
      match codec.decodeUntyped(m.content)
      case None => Delivery(None, Raised(Malformed))
      case Some(v) =>
        var call := Some(Invocation(h, v));
        match handlerOutcome
        case Done => Delivery(call, Ok)
        case Fail(f) => Delivery(call, Raised(f))
  }

  // ---------------------------------------------------------------------------
  // Sequences of operations

  /** A call of a public operation together with the environment's answer to it. */
  datatype Request =
    | ConnectReq(start: Outcome)
    | DisconnectReq(dispose: Outcome)
    | SendReq(topic: string, value: Value, outcome: Outcome)
    | SubscribeReq(topic: string, handler: HandlerId, outcome: Outcome)
    | UnsubscribeReq(topic: string, outcome: Outcome)

  function Apply(s: Proxy, codec: Codec, q: Request): Step<Proxy> {
    match q
    case ConnectReq(start) => Connect(s, start)
    case DisconnectReq(dispose) => Disconnect(s, dispose)
    case SendReq(topic, v, outcome) => Send(s, codec, topic, v, outcome)
    case SubscribeReq(topic, h, outcome) => Subscribe(s, topic, h, outcome)
    case UnsubscribeReq(topic, outcome) => Unsubscribe(s, topic, outcome)
  }

  /** The state after the requests, issued one after another. */
  function Run(s: Proxy, codec: Codec, qs: seq<Request>): Proxy
    decreases |qs|
  {
    if |qs| == 0 then s else Run(Apply(s, codec, qs[0]).state, codec, qs[1..])
  }

  /** The table edit a request makes when the remote call completes normally. */
  function EditOf(q: Request): seq<Edit<HandlerId>> {
    match q
    case SubscribeReq(topic, h, Done) => [Put(topic, h)]
    case UnsubscribeReq(topic, Done) => [Remove(topic)]
    case _ => []
  }

  function Edits(qs: seq<Request>): seq<Edit<HandlerId>>
    decreases |qs|
  {
    if |qs| == 0 then [] else EditOf(qs[0]) + Edits(qs[1..])
  }

  /** One request changes the table by exactly its own edit. */
  lemma ApplyEdits(s: Proxy, codec: Codec, q: Request)
    ensures Apply(s, codec, q).state.handlers == Replay(s.handlers, EditOf(q))
  {
  }

  /**
    The connection is never cleared, so every normally completed subscribe or
    unsubscribe counts, before or after a disconnect: the table after any
    requests is their edits replayed onto the original table.
   */
  lemma {:induction false} RunReplaysEdits(s: Proxy, codec: Codec, qs: seq<Request>)
    ensures Run(s, codec, qs).handlers == Replay(s.handlers, Edits(qs))
    decreases |qs|
  {
    if |qs| > 0 {
      ApplyEdits(s, codec, qs[0]);
      RunReplaysEdits(Apply(s, codec, qs[0]).state, codec, qs[1..]);
      ReplayAppend(s.handlers, EditOf(qs[0]), Edits(qs[1..]));
    }
  }

  /**
    The handler of a topic after any requests is the one the last normally
    completed subscribe or unsubscribe of that topic left, or the original.
   */
  lemma RunFollowsLastWord(s: Proxy, codec: Codec, qs: seq<Request>, t: string)
    ensures Lookup(Run(s, codec, qs).handlers, t) == LastWord(Edits(qs), t).ValueOr(Lookup(s.handlers, t))
  {
    RunReplaysEdits(s, codec, qs);
    ReplayFollowsLastWord(s.handlers, Edits(qs), t);
  }

  /**
    The cancellation flag is set by a disconnect and by nothing else, and once
    set it stays set; the next invocation passes a cancelled token exactly
    when some disconnect came before it.
   */
  lemma {:induction false} CancelledIffDisconnected(s: Proxy, codec: Codec, qs: seq<Request>)
    ensures Run(s, codec, qs).cancelled <==>
      s.cancelled || exists i :: 0 <= i < |qs| && qs[i].DisconnectReq?
    ensures forall q :: Apply(Run(s, codec, qs), codec, q).issued.Some? ==>
      var call := Apply(Run(s, codec, qs), codec, q).issued.value;
      call.Invoke? ==> (call.tokenCancelled <==> s.cancelled || exists i :: 0 <= i < |qs| && qs[i].DisconnectReq?)
    decreases |qs|
  {
    if |qs| > 0 {
      var rest := qs[1..];
      CancelledIffDisconnected(Apply(s, codec, qs[0]).state, codec, rest);
      assert forall j :: 0 <= j < |rest| ==> rest[j] == qs[j + 1];
      if exists i :: 0 <= i < |qs| && qs[i].DisconnectReq? {
        var i :| 0 <= i < |qs| && qs[i].DisconnectReq?;
        if i > 0 {
          assert rest[i - 1].DisconnectReq?;
        }
      }
    }
  }

  /** How many connects in the requests saw their start complete. */
  function CountStarts(qs: seq<Request>): nat
    decreases |qs|
  {
    if |qs| == 0 then 0 else (if qs[0] == ConnectReq(Done) then 1 else 0) + CountStarts(qs[1..])
  }

  /**
    Each completed start registers exactly one more inbound receiver and
    nothing else does; the connection counts as started once any start
    completed.
   */
  lemma {:induction false} ReceiversCountStarts(s: Proxy, codec: Codec, qs: seq<Request>)
    ensures Run(s, codec, qs).connection.receivers == s.connection.receivers + CountStarts(qs)
    ensures Run(s, codec, qs).connection.started <==> s.connection.started || CountStarts(qs) > 0
    decreases |qs|
  {
    if |qs| > 0 {
      ReceiversCountStarts(Apply(s, codec, qs[0]).state, codec, qs[1..]);
    }
  }

  /** Every disconnect disposes once more and never drops the connection. */
  lemma {:induction false} DisposalsCountDisconnects(s: Proxy, codec: Codec, qs: seq<Request>)
    ensures Run(s, codec, qs).connection.disposals == s.connection.disposals + CountDisconnects(qs)
    decreases |qs|
  {
    if |qs| > 0 {
      DisposalsCountDisconnects(Apply(s, codec, qs[0]).state, codec, qs[1..]);
    }
  }

  function CountDisconnects(qs: seq<Request>): nat
    decreases |qs|
  {
    if |qs| == 0 then 0 else (if qs[0].DisconnectReq? then 1 else 0) + CountDisconnects(qs[1..])
  }

  // ---------------------------------------------------------------------------
  // Scenarios

  /** After a disconnect, invocations still go out, with a cancelled token. */
  lemma AfterDisconnectTokenIsCancelled(s: Proxy, codec: Codec, d: Outcome, t: string, h: HandlerId, o: Outcome)
    ensures Subscribe(Disconnect(s, d).state, t, h, o).issued.value.tokenCancelled
    ensures Unsubscribe(Disconnect(s, d).state, t, o).issued.value.tokenCancelled
  {
  }

  /** A cancelled or all-cancelled remote call returns normally and keeps the state. */
  lemma CancellationKeepsState(s: Proxy, codec: Codec, q: Request, f: Failure)
    requires IsCancellation(f) && !q.DisconnectReq?
    requires q.ConnectReq? ==> q.start == Fail(f)
    requires !q.ConnectReq? ==> q.outcome == Fail(f)
    ensures Apply(s, codec, q).completion == Swallowed(f)
    ensures Apply(s, codec, q).state == s
  {
  }

  /** Any other failure of connect, send, subscribe or unsubscribe is re-raised and keeps the state. */
  lemma OtherFailureIsRaised(s: Proxy, codec: Codec, q: Request, f: Failure)
    requires !IsCancellation(f) && !q.DisconnectReq?
    requires q.ConnectReq? ==> q.start == Fail(f)
    requires !q.ConnectReq? ==> q.outcome == Fail(f)
    ensures Apply(s, codec, q).completion == Raised(f)
    ensures Apply(s, codec, q).state == s
  {
  }

  /**
    The round trip the integration test intends: a string sent on a topic, handed
    to a proxy subscribed to it, reaches the handler as exactly that string.
   */
  lemma SendStringThenReceive(sender: Proxy, receiver: Proxy, codec: Codec, t: string, text: string,
                              h: HandlerId, sent: Outcome, ho: Outcome)
    requires UntypedRoundTripsAt(codec, Text(text))
    ensures var r := Subscribe(receiver, t, h, Done).state;
            var call := Send(sender, codec, t, Text(text), sent).issued.value;
            HandleReceived(r, codec, call.arg.message, ho).invoked == Some(Invocation(h, Text(text)))
  {
  }

  /** Subscribing with h1 and then h2: a later message reaches h2 only. */
  lemma SubscribeReplaces(s: Proxy, codec: Codec, t: string, h1: HandlerId, h2: HandlerId,
                          content: string, ho: Outcome)
    ensures var s2 := Subscribe(Subscribe(s, t, h1, Done).state, t, h2, Done).state;
            var d := HandleReceived(s2, codec, Message(t, content), ho);
            d.invoked.Some? ==> d.invoked.value.handler == h2
  {
  }

  /** After unsubscribing, a message on the topic invokes nothing and raises nothing. */
  lemma UnsubscribeThenDeliver(s: Proxy, codec: Codec, t: string, content: string, ho: Outcome)
    ensures HandleReceived(Unsubscribe(s, t, Done).state, codec, Message(t, content), ho) == Delivery(None, Ok)
  {
  }
}

=== FILE: options.dfy ===
/**
  A value that may be missing: the entry a topic may have, the result of a
  decode that may fail, the call a step may issue.
 */
module Options {

  datatype Option<T> = None | Some(value: T) {

    /** The held value, or `fallback` when nothing is held. */
    function ValueOr(fallback: T): T {
      if Some? then value else fallback
    }
  }
}

=== FILE: registry.dfy ===
/**
  The handler table both clients keep: a map from topic to entry, changed only
  by `AddOrUpdate` and `TryRemove`, each taken as one atomic step. A sequence
  of such edits is compared against an independent reading of the table: the
  entry of a topic is whatever the last edit naming that topic left there.
 */
module Registry {
  import opened Options

  /** `TryGetValue`: the entry stored for a topic, if any. */
  function Lookup<E>(m: map<string, E>, t: string): (r: Option<E>)
    ensures r.Some? <==> t in m
    ensures r.Some? ==> m[t] == r.value
  {
    if t in m then Some(m[t]) else None
  }

  /** `AddOrUpdate` with an update function that returns the new entry: insert or replace. */
  function AddOrUpdate<E>(m: map<string, E>, t: string, e: E): (r: map<string, E>)
    ensures Lookup(r, t) == Some(e)
    ensures forall u :: u != t ==> Lookup(r, u) == Lookup(m, u)
    ensures r.Keys == m.Keys + {t}
  {
    m[t := e]
  }

  /** `TryRemove`: drop the topic's entry; an absent topic leaves the map as it was. */
  function TryRemove<E>(m: map<string, E>, t: string): (r: map<string, E>)
    ensures Lookup(r, t) == None
    ensures forall u :: u != t ==> Lookup(r, u) == Lookup(m, u)
    ensures r.Keys == m.Keys - {t}
    ensures t !in m ==> r == m
  {
    m - {t}
  }

  /** One change to the table. */
  datatype Edit<E> = Put(topic: string, entry: E) | Remove(topic: string) {
    /** The entry the edit leaves for its topic. */
    function Word(): Option<E> {
      if Put? then Some(entry) else None
    }
  }

  function ApplyEdit<E>(m: map<string, E>, e: Edit<E>): map<string, E> {
    match e
    case Put(t, x) => AddOrUpdate(m, t, x)
    case Remove(t) => TryRemove(m, t)
  }

  /** The table after the edits, applied first to last. */
  function Replay<E>(m: map<string, E>, edits: seq<Edit<E>>): map<string, E>
    decreases |edits|
  {
    if |edits| == 0 then m else Replay(ApplyEdit(m, edits[0]), edits[1..])
  }

  /**
    The word of the last edit naming `t`: None if no edit names it, otherwise
    Some of the entry a Put stores or Some(None) for a Remove.
   */
  function LastWord<E>(edits: seq<Edit<E>>, t: string): Option<Option<E>>
    decreases |edits|
  {
    if |edits| == 0 then None
    else if edits[|edits| - 1].topic == t then Some(edits[|edits| - 1].Word())
    else LastWord(edits[..|edits| - 1], t)
  }

  /** Replaying a concatenation replays the first part and then the second. */
  lemma {:induction false} ReplayAppend<E>(m: map<string, E>, a: seq<Edit<E>>, b: seq<Edit<E>>)
    ensures Replay(m, a + b) == Replay(Replay(m, a), b)
    decreases |a|
  {
    if |a| == 0 {
      assert a + b == b;
    } else {
      assert (a + b)[0] == a[0];
      assert (a + b)[1..] == a[1..] + b;
      ReplayAppend(ApplyEdit(m, a[0]), a[1..], b);
    }
  }

  /**
    After any sequence of edits a topic holds what the last edit naming it left,
    or its original entry when no edit names it.
   */
  lemma {:induction false} ReplayFollowsLastWord<E>(m: map<string, E>, edits: seq<Edit<E>>, t: string)
    ensures Lookup(Replay(m, edits), t) == LastWord(edits, t).ValueOr(Lookup(m, t))
    decreases |edits|
  {
    if |edits| > 0 {
      var n := |edits| - 1;
      var front := edits[..n];
      assert edits == front + [edits[n]];
      ReplayAppend(m, front, [edits[n]]);
      assert Replay(Replay(m, front), [edits[n]]) == ApplyEdit(Replay(m, front), edits[n]);
      ReplayFollowsLastWord(m, front, t);
    }
  }

  /** LastWord is the word of the last edit naming the topic, characterised by position. */
  lemma {:induction false} LastWordIsLast<E>(edits: seq<Edit<E>>, t: string, i: nat)
    requires i < |edits| && edits[i].topic == t
    requires forall j :: i < j < |edits| ==> edits[j].topic != t
    ensures LastWord(edits, t) == Some(edits[i].Word())
    decreases |edits|
  {
    if i < |edits| - 1 {
      var front := edits[..|edits| - 1];
      assert front[i] == edits[i];
      LastWordIsLast(front, t, i);
    }
  }

  /** With no edit naming the topic, LastWord says nothing. */
  lemma {:induction false} LastWordSilent<E>(edits: seq<Edit<E>>, t: string)
    requires forall j :: 0 <= j < |edits| ==> edits[j].topic != t
    ensures LastWord(edits, t) == None
    decreases |edits|
  {
    if |edits| > 0 {
      var front := edits[..|edits| - 1];
      assert forall j :: 0 <= j < |front| ==> front[j] == edits[j];
      LastWordSilent(front, t);
    }
  }
}

=== FILE: transport.dfy ===
/**
  The hub connection as the clients see it. The transport itself (start,
  invoke, dispose) is not modelled: every call a client issues is recorded in
  the step it takes, and the transport's answer comes in as an `Outcome`.
 */
module Transport {
  import opened Options
  import opened Failures
  import opened Envelope

  /** A user callback, known only by its identity. */
  type HandlerId = nat

  /**
    What the clients change on a `HubConnection`: whether a start completed,
    how many inbound "Publish" receivers were registered with `On`, and how
    many times `DisposeAsync` was called on it (whether or not it completed).
   */
  datatype Connection = Connection(started: bool, receivers: nat, disposals: nat)

  /** The connection a client constructor creates: not started, no receiver. */
  const Fresh := Connection(false, 0, 0)

  /** The argument of a hub invocation. */
  datatype Arg = TopicArg(topic: string) | MessageArg(message: Message)

  /**
    A call a client makes on its connection. An invocation carries whether the
    client's cancellation token had been cancelled when it was passed.
   */
  datatype Call =
    | Start
    | Dispose
    | Invoke(target: string, tokenCancelled: bool, arg: Arg)

  /** One operation of a client: the new state, the call issued (if any) and how it ended. */
  datatype Step<S> = Step(state: S, issued: Option<Call>, completion: Completion)

  /** A handler called with a decoded value. */
  datatype Invocation = Invocation(handler: HandlerId, argument: Value)

  /** What handling one inbound message does: the invocation made (if any) and how it ended. */
  datatype Delivery = Delivery(invoked: Option<Invocation>, completion: Completion)

  /** A start that completed and the receiver registration that follows it. */
  function Started(c: Connection): (r: Connection)
    ensures r.started
    ensures r.receivers == c.receivers + 1
    ensures r.disposals == c.disposals
  {
    c.(started := true, receivers := c.receivers + 1)
  }

  /**
    The behaviour of `HubConnection.StartAsync` the clients rely on: starting a
    connection that is already started fails with an invalid operation.
   */
  predicate RejectsRestart(c: Connection, start: Outcome) {
    c.started ==> start == Fail(InvalidOperation)
  }
}
